=== FILE: README.md ===
# csfloat-monitor, modelled in Dafny

The monitor polls a marketplace's listings endpoint. It skips listings it has
already met, using an in-memory set of ids. It flags a listing as a deal when
the price is at least ten percent below the item's reference price, and it
picks a delay before the next poll. Next to it, the repository has a durable
seen/notified table. The loop never calls that table.

This project models these parts as pure functions over immutable datatypes:

- `Config` (config.py): the fixed constants. These are the minimum discount
  fraction 0.10, the base interval 10 s, the jitter range 2 s and the long
  delay 30 s.
- `Models` (models.py): the listing, item and reference records. It also has
  the reference-price fallback and the price in dollars. A small decoder for
  the records' fields shows which fields are required and which default to
  None.
- `Api` (api.py): the fetch takes an abstract response (status, the two
  rate-limit headers, the body) to the tuple
  `(listings, remaining, status, reset)`. Each raw entry carries the outcome
  of validating it.
- `Store` (database.py): the seen/notified table, as a map from listing id to
  `(notified, createdAt)`. It covers insert-or-ignore, update-if-present, the
  two membership queries and the retention delete. A history of calls replays
  into a table, which gives a reference meaning for both queries.
- `Window` (monitor.py): the in-memory id set. A new id is added, and once the
  set grows past 1000 ids it is cut to 500. The cut keeps the last 500 entries
  of the set turned into a list. A set has no order, so the model keeps *some*
  500 ids of the set. A lemma shows that the contract cannot promise recency:
  the id just added may be dropped.
- `Monitor` (monitor.py): the per-listing decision, the per-page loop, the
  empty-fetch counter, the three-way delay choice and one iteration as a
  step function over `(window, emptyStreak)`. It also has the iteration as
  written (see Findings), the corrected iteration, and runs of both over a
  sequence of polls.

A few facts about the loop shape the model:

- The loop has no rate-limit cooldown, no adaptive page size and no
  notifier.
- The loop does not consult the durable table.
- The window is cut at 1000 down to 500.
- The headroom threshold is 10 remaining requests.
- Jitter is uniform on `[0, 2]` seconds.

Randomness and time enter as parameters. The jitter is a real in
`[0, JitterRange]`. Clock readings are integer seconds. Whether a fetch
raised is part of each poll.

## Model

| member | source | states |
|---|---|---|
| Models.ValidPrice | models.py:15-16 | the resolved reference is one of the two estimates, and the base price wins whenever it is present and nonzero |
| Models.ValidPriceResolution | models.py:12-16 | base first; the predicted price when the base is absent or zero (a zero base falls through); None when both are absent |
| Models.ValidPriceTruthy | models.py:15-16 | the resolved price is usable (present and nonzero) iff at least one of the two estimates is |
| Models.PriceUsd | models.py:26-28 | the dollar price times 100 is the price in cents; a non-negative price gives a non-negative dollar price |
| Models.RequiredStr | models.py:19-23 | a required string field decodes iff it is present and holds a string, and then to that string |
| Models.RequiredInt | models.py:19-23 | a required integer field decodes iff it is present and holds an integer, and then to that integer |
| Models.OptionalFloat | models.py:7 | an optional float field that is missing or null decodes to None; a present float decodes to itself and a present integer to its widening; every other kind is rejected, which is stricter than the validator (see Left out) |
| Models.OptionalInt | models.py:8 | an optional integer field that is missing or null decodes to None; a present integer decodes to itself; every other kind is rejected, which is stricter than the validator (see Left out) |
| Models.DecodeItem | models.py:5-8 | an item object validates iff `market_hash_name` is a string and `float_value` and `paint_seed` are each absent, null or of their kind; the decoded item carries exactly those values |
| Models.DecodeReference | models.py:11-13 | a reference object validates iff `base_price` and `predicted_price` are each absent, null or a number; the decoded reference carries exactly those values; anything but an object fails |
| Models.ItemExtrasIgnored | models.py:5-8 | keys the item record does not declare are ignored: an item's wire form with extra keys decodes to the same item |
| Models.ReferenceExtrasIgnored | models.py:11-13 | keys the reference record does not declare are ignored: a reference's wire form with extra keys decodes to the same reference |
| Models.DecodeListing | models.py:19-24 | an object validates iff `id` and `type` are strings, `price` is an integer, `item` validates and `reference` is absent, null or validates; a validated listing carries exactly those values, and its reference is None iff the key is absent or null (round trip in Models.DecodeEncodeListing) |
| Models.ExtraFieldsIgnored | models.py:19-24 | keys the record does not declare are ignored: a listing's wire form with extra keys decodes to the same listing |
| Models.NullReferenceValidates | models.py:24 | an explicit null `reference` validates like an absent one, giving no reference |
| Models.AbsentFieldsDefaultToNone | models.py:5-24 | in a validated listing, `reference` and the item's `float_value` and `paint_seed` are None when absent or null |
| Models.MissingRequiredFieldFails | models.py:19-23 | a listing object without `id`, `price`, `type` or `item` fails validation |
| Models.DecodeEncodeListing | models.py:5-24 | decoding inverts encoding for every listing, with omitted optional fields coming back as None |
| Api.RawList | api.py:20-23 | entries come from `data` if it is a non-empty list, else from `listings` if that is one, else none; a body that is not an object gives none |
| Api.ParseAll | api.py:26-30 | validation succeeds iff every entry validates, and then yields one listing per entry, in order |
| Api.Classify | api.py:9-31 | remaining is the header when sent and 50 otherwise, in every outcome; 429 gives no listings with the reset header, or 30 when it is not sent; any other non-200 gives no listings, that status and reset 0; a failed entry gives no listings with status 500; otherwise the validated listings with status 200 |
| Api.ListingsOnlyFromValidPage | api.py:26-31 | listings come back only from a 200 response whose every entry validated, one per entry and in the same order |
| Api.StatusAndResetSignals | api.py:13-31 | a nonzero reset means a 429, and the reported status differs from the HTTP status only when a 200 page failed validation |
| Api.OneInvalidEntryDiscardsPage | api.py:26-30 | one invalid entry discards the whole page, valid entries included |
| Store.IsSeen | database.py:22-25 | an id is seen iff the table has a row for it, whatever the flag (its meaning over a history is Store.SeenIffMarked) |
| Store.IsNotified | database.py:27-30 | an id is notified iff its row exists with the flag set; a notified id is always a seen one (its meaning over a history is Store.NotifiedIffMarkedAfterSeen) |
| Store.MarkAsSeen | database.py:32-35 | the id is seen afterwards; an absent id gets a fresh row (not notified, stamped now); a present row, its flag included, is left as it was; no other row changes |
| Store.MarkAsNotified | database.py:37-40 | sets the flag on an existing row, keeping its timestamp; never creates a row; no other row changes |
| Store.CleanupOldItems | database.py:42-46 | keeps exactly the rows created at or after the cutoff, unchanged |
| Store.MarkAsSeenIdempotent | database.py:32-35 | marking seen twice equals marking once, and never clears the flag |
| Store.MarkAsNotifiedIdempotent | database.py:37-40 | marking notified twice equals marking once |
| Store.CleanupIdempotent | database.py:42-46 | a second cleanup with the same clock and window removes nothing more |
| Store.FlagNeverCleared | database.py:32-46 | no call turns the flag from true to false; only a cleanup can remove a notified row |
| Store.OtherRowsUnchanged | database.py:32-46 | a mark touches only the id it names, and a cleanup only deletes rows |
| Store.SeenIffMarked | database.py:22-35 | without cleanups and from an empty table, an id is seen iff some call marked it seen |
| Store.NotifiedIffMarkedAfterSeen | database.py:27-40 | without cleanups and from an empty table, an id is notified iff a notify call for it came after a seen call for it |
| Store.NotifiedStaysNotified | database.py:32-46 | along any history a notified id stays notified unless some cleanup deleted its row |
| Store.NotifiedStaysWithoutCleanup | database.py:32-40 | along a history without cleanups the flag, once set, is kept |
| Store.DefaultRetentionKeepsAWeek | database.py:42-46 | with the default of 7 days a row survives a cleanup iff it was stamped at most 604800 seconds ago |
| Store.LongerRetentionKeepsMore | database.py:42-46 | a longer retention window keeps every row a shorter one keeps |
| Window.Enumerate | monitor.py:35 | turning the set into a list lists each element exactly once |
| Window.Evict | monitor.py:35 | the cut keeps exactly 500 ids, all taken from the set |
| Window.Admit | monitor.py:33-35 | the new id is added; past 1000 ids the result is some 500-id subset of the enlarged set; a window within the cap stays within it |
| Window.EvictionIgnoresRecency | monitor.py:33-35 | when a full window overflows, a cut that drops the new id and one that keeps it are both allowed, so the newest ids are not guaranteed to survive |
| Monitor.ResolvedReference | monitor.py:36-40 | a reference is usable iff the listing has one and its resolved price is present and nonzero |
| Monitor.Evaluate | monitor.py:36-44 | no decision without a usable reference; otherwise a deal iff price/100 <= ref/100 * 0.9, reported with a percentage p such that p * ref/100 = (ref/100 - price/100) * 100; for a positive reference p >= 10 |
| Monitor.DiscountAtLeastMinimum | monitor.py:41-44 | for a positive reference, a price at most 90% of it is a discount of at least ten percent |
| Monitor.DealIffNinetyPercentInCents | monitor.py:41-43 | for a positive reference R in cents, a listing is a deal iff 10 * price <= 9 * R |
| Monitor.DiscountWithinBounds | monitor.py:43-44 | a deal against a positive reference at a non-negative price reports between 10 and 100 percent |
| Monitor.DiscountExamples | monitor.py:36-44 | 45000 against 50000 is a deal at exactly 10%; 46000 is not; the predicted price stands in for a missing or zero base; a zero-or-missing pair gives no decision |
| Monitor.ProcessListing | monitor.py:30-44 | an id already in the window is skipped with no decision; a new id is admitted and judged, and a report is made iff it is a deal |
| Monitor.ProcessPage | monitor.py:30-51 | over a page the window stays within the cap and within old ids plus page ids; every report is a deal from the page; without overflow the reports are exactly the page's fresh deals; with or without overflow every fresh deal is announced (Monitor.FreshDealAlwaysAnnounced) |
| Monitor.FreshDealsExactly | monitor.py:30-44 | a listing is reported iff it is a deal, its id was unknown before the page, and no earlier listing in the page had the same id |
| Monitor.FreshDealAlwaysAnnounced | monitor.py:30-44 | even when the window overflows, a deal whose id the window did not hold before the page is announced at the id's first occurrence in the page |
| Monitor.StreakCountsTrailingEmpties | monitor.py:25-28 | folding the counter update over a history of fetches gives the length of the run of empty fetches that ends it (plus the start count if every fetch was empty): it reaches m iff the last m fetches were all empty |
| Monitor.SlowdownIffRecentFetchesEmpty | monitor.py:25-61 | from a fresh start and with at least 10 requests left, the 15-second delay is chosen iff the last 5 fetches all came back empty |
| Monitor.SleepTime | monitor.py:52-61 | remaining < 10 gives 30 + j whatever the streak; otherwise a streak of at least 5 gives 15 + j; otherwise 10 + j; always within [10, 32] |
| Monitor.LowHeadroomDominates | monitor.py:52-61 | with remaining < 10, no other budget or streak yields a longer delay for the same jitter |
| Monitor.SleepMonotone | monitor.py:52-61 | a longer empty streak or a smaller budget never shortens the delay |
| Monitor.Step | monitor.py:24-63 | an empty fetch bumps the streak and leaves window and deals alone; a non-empty one resets it; the window stays within the cap and within the old ids plus the fetched ones; every report is a deal from the fetch; when the window does not overflow, the new window is the old one plus the fetched ids and the reports are exactly the page's fresh deals (Monitor.FreshDealsExactly), and with overflow every fresh deal is still announced (Monitor.StepAnnouncesFreshDeals); the delay follows SleepTime on the new streak and lies in [10, 32] |
| Monitor.StepAnnouncesFreshDeals | monitor.py:24-51 | every iteration, overflowing or not, announces each deal of the fetch whose id the window did not hold, at the id's first occurrence |
| Monitor.Returned | api.py:16-31 | the fetch hands back four values, the first two being the listings and the remaining budget |
| Monitor.AsWrittenStep | monitor.py:21-66 | a return value of any length other than two raises and backs off 10 s with the state untouched |
| Monitor.AsWrittenPoll | monitor.py:21-66 | a raising fetch backs off at once; an answered one reaches the two-name unpacking |
| Monitor.CorrectedStep | monitor.py:21-66 | an iteration completes iff its fetch answered, and then it is Monitor.Step on the classified listings and budget; a raising fetch backs off 10 s with the state untouched; the window stays within the cap |
| Monitor.AsWrittenAlwaysCrashes | monitor.py:23 | as written, every iteration ends in the crash branch with a 10 s backoff |
| Monitor.RunAsWritten | monitor.py:21-66 | the loop as written yields one outcome per poll; each outcome is the as-written iteration on its poll, from the state the previous outcome left |
| Monitor.Run | monitor.py:21-66 | the corrected loop yields one outcome per poll and so never stops on its own; each outcome is the corrected iteration on its poll, from the state the previous outcome left |
| Monitor.AsWrittenRunIsStuck | monitor.py:21-66 | as written, every iteration of any run crashes, the state never leaves its start, and no deal is ever reported |
| Monitor.RunKeepsInvariants | monitor.py:21-66 | over any corrected run the window stays within the cap; completed iterations wait within [10, 32]; crashed ones wait 10 s |
| Monitor.RunCompletesIffAnswered | monitor.py:21-66 | in any corrected run, an iteration completes iff its fetch answered |
| Monitor.ArityMismatchLosesDeal | monitor.py:23 | a 200 page with one 450-dollar listing against a 500-dollar reference is reported by the corrected iteration and lost by the one as written |

## Findings

| source | as written | input that shows it | evidently intended | confidence | as-written member | corrected member |
|---|---|---|---|---|---|---|
| monitor.py:23 | the iteration unpacks the fetch's result into two names, but the fetch returns four values (api.py:16, 19, 31), so the unpacking always raises and the handler backs off | any answered poll, e.g. a 200 page with one listing at 45000 cents against a reference of 50000 cents | unpack all four values and use the listings and the remaining budget | high (not executed) | Monitor.AsWrittenStep, shown by Monitor.AsWrittenAlwaysCrashes, Monitor.AsWrittenRunIsStuck and Monitor.ArityMismatchLosesDeal | Monitor.CorrectedStep, with Monitor.RunKeepsInvariants and Monitor.ArityMismatchLosesDeal |

`Monitor.Run` is built on the corrected iteration.

## Left out

- The HTTP client and the request (monitor.py:19, api.py:10-11): the response is an abstract value, and a failing request is the `Raised` fetch.
- Header parsing with `int(...)` (api.py:12, 14), which can raise: the headers are modelled as already-parsed integers, and a raise is the `Raised` fetch.
- Body decoding (api.py:20), which can raise: it is treated like any other raising fetch.
- The request parameters, including the random initial page size in [45, 50] (monitor.py:11-16): they only reach the HTTP client.
- Record validation inside the fetch (api.py:27-28): each raw entry carries its validation outcome as an input.
- Models.OptionalFloat: the validation library's lax coercions into a float (numeric strings, booleans) are not modelled; such values are rejected.
- Models.RequiredInt: the lax coercions into `price` (integral floats such as `3.0`, numeric strings, booleans) are not modelled; such values are rejected.
- Models.OptionalInt: the same lax coercions into `paint_seed` are not modelled; such values are rejected.
- Monitor.ProcessPage: on a page that overflows the window, an id evicted earlier in the page can be announced again, so the model promises exactness (reports equal the fresh deals) only without overflow; completeness holds in both cases.
- Monitor.Step: it runs the page loop, so the same gap applies: on an overflowing fetch the reports are not promised to be exactly the fresh deals, only to include every one of them (Monitor.StepAnnouncesFreshDeals).
- A raw entry that is not a mapping makes the record constructor raise a type error, which the fetch does not catch. This case is not modelled.
- Truthy values in `data` or `listings` that are not lists are not modelled either.
- The SQLite connection, the SQL text, `init_db` and the data-directory creation at import time (database.py:1-20): the table is a map.
- Store.CleanupOldItems: time is integer seconds, and the cutoff is now minus days × 86400. The source compares a formatted local-time string against a UTC `CURRENT_TIMESTAMP`. That skew is not modelled.
- config.py environment loading, logging setup and `build_headers`: these are environment plumbing.
- `random.uniform` and `time.sleep` (monitor.py:52, 57, 61, 63, 66): the jitter is a parameter in [0, 2], and sleeping is returning the delay.
- Monitor.SleepTime: the source draws a jitter at line 52 and throws it away when an override applies. The model takes only the jitter that ends up in the delay.
- IEEE floating point: prices and percentages are exact reals, so comparisons such as 450 <= 500 × 0.9 are exact.
- Models.ValidPrice: a NaN price is truthy in the source, and reals have no NaN, so that case is not modelled.
- The infinite `while True` loop: runs are finite sequences of polls. Every poll yields an outcome, which is how the model states that the loop never exits.
- Logging of deals, warnings and crashes: the loop's only output is the list of deal reports.
- Window.Enumerate: the set-to-list order is an unspecified but fixed function of the set. CPython's order also depends on insertion history. No stated property depends on the order.
- Monitor.AsWrittenStep: a two-value return of the wrong kinds goes straight to the crash branch. The model does not track how far such an iteration would get before raising.
- Monitor.CorrectedStep: other exceptions inside an iteration after the fetch answered are not generated. The model has none to raise.

=== FILE: api.dfy ===
/** Classification of one listings response (api.py): the HTTP exchange is
    given as an abstract response, and the per-item record validation as its
    outcome, so the fetch becomes a pure function of the response. */
module Api {
  import opened Models

  /** Rate-limit budget assumed when the server sends no header. */
  const DefaultRemaining: int := 50
  /** Cooldown assumed when a 429 response carries no reset header. */
  const DefaultReset: int := 30
  /** Status the fetch reports when the page fails record validation. */
  const ValidationFailedStatus: int := 500

  /** One raw entry of the payload's list, with the outcome of validating it
      into a listing (None when validation fails). */
  datatype RawItem = RawItem(parsed: Option<Listing>)

  /** The decoded body: an object whose `data` and `listings` keys may be
      missing, null or hold a list, or anything that is not an object. */
  datatype Payload =
    | JsonObject(data: Option<seq<RawItem>>, listings: Option<seq<RawItem>>)
    | NotAnObject

  /** Status, the two rate-limit headers (already parsed to integers) and body. */
  datatype Response = Response(status: int, remainingHeader: Option<int>, resetHeader: Option<int>, payload: Payload)

  /** What a fetch returns: listings, remaining budget, status and reset seconds. */
  datatype FetchResult = FetchResult(listings: seq<Listing>, remaining: int, status: int, reset: int)

  /** A header's value, or the default when the server did not send it. */
  function HeaderOr(h: Option<int>, default: int): int {
    if h.Some? then h.value else default
  }

  /** Truthiness of an optional list field: missing, null and empty are false. */
  predicate NonEmpty(field: Option<seq<RawItem>>) {
    field.Some? && |field.value| > 0
  }

  /** The entries to validate: `data` if it holds a non-empty list, else
      `listings` if it does, else nothing; a body that is not an object
      yields nothing. */
  function RawList(p: Payload): (raw: seq<RawItem>)
    ensures p.NotAnObject? ==> raw == []
    ensures p.JsonObject? && NonEmpty(p.data) ==> raw == p.data.value
    ensures p.JsonObject? && !NonEmpty(p.data) && NonEmpty(p.listings) ==> raw == p.listings.value
    ensures raw == [] <==> p.NotAnObject? || (!NonEmpty(p.data) && !NonEmpty(p.listings))
  {
    if p.NotAnObject? then []
    else if NonEmpty(p.data) then p.data.value
    else if NonEmpty(p.listings) then p.listings.value
    else []
  }

  predicate AllValid(raw: seq<RawItem>) {
    forall i :: 0 <= i < |raw| ==> raw[i].parsed.Some?
  }

  /** Validates the entries in order; one failure discards the whole page. */
  function ParseAll(raw: seq<RawItem>): (r: Option<seq<Listing>>)
    ensures r.Some? <==> AllValid(raw)
    ensures r.Some? ==> |r.value| == |raw| && forall i :: 0 <= i < |raw| ==> raw[i].parsed == Some(r.value[i])
  {
    if raw == [] then Some([])
    else
      var rest := ParseAll(raw[1..]);
      if raw[0].parsed.None? || rest.None? then
        assert !AllValid(raw) by {
          if raw[0].parsed.Some? {
            var k :| 0 <= k < |raw[1..]| && raw[1..][k].parsed.None?;
            assert raw[k + 1].parsed.None?;
          }
        }
        None
      else
        Some([raw[0].parsed.value] + rest.value)
  }

  /** fetch_listings after the request: the outcome for each kind of response. */
  function Classify(resp: Response): (r: FetchResult)
    ensures resp.remainingHeader.Some? ==> r.remaining == resp.remainingHeader.value
    ensures resp.remainingHeader.None? ==> r.remaining == DefaultRemaining
    ensures resp.status == 429 ==> r.listings == [] && r.status == 429
    ensures resp.status == 429 && resp.resetHeader.Some? ==> r.reset == resp.resetHeader.value
    ensures resp.status == 429 && resp.resetHeader.None? ==> r.reset == DefaultReset
    ensures resp.status != 429 && resp.status != 200 ==> r.listings == [] && r.status == resp.status && r.reset == 0
    ensures resp.status == 200 && !AllValid(RawList(resp.payload)) ==>
              r.listings == [] && r.status == ValidationFailedStatus && r.reset == 0
    ensures resp.status == 200 && AllValid(RawList(resp.payload)) ==>
              r.status == 200 && r.reset == 0 && Some(r.listings) == ParseAll(RawList(resp.payload))
  {
    var remaining := HeaderOr(resp.remainingHeader, DefaultRemaining);
    if resp.status == 429 then
      FetchResult([], remaining, 429, HeaderOr(resp.resetHeader, DefaultReset))
    else if resp.status != 200 then
      FetchResult([], remaining, resp.status, 0)
    else
      var parsed := ParseAll(RawList(resp.payload));
      if parsed.None? then FetchResult([], remaining, ValidationFailedStatus, 0)
      else FetchResult(parsed.value, remaining, 200, 0)
  }

  /** Listings only come back from a 200 response whose every entry validated,
      one per raw entry and in the same order. */
  lemma ListingsOnlyFromValidPage(resp: Response)
    ensures |Classify(resp).listings| > 0 ==>
              resp.status == 200 && AllValid(RawList(resp.payload)) && Classify(resp).status == 200
    ensures Classify(resp).status == 200 ==>
              |Classify(resp).listings| == |RawList(resp.payload)|
              && forall i :: 0 <= i < |Classify(resp).listings| ==>
                   RawList(resp.payload)[i].parsed == Some(Classify(resp).listings[i])
  {
  }

  /** A nonzero reset is only ever reported for a 429, and the reported status
      differs from the HTTP status only when a 200 page failed validation. */
  lemma StatusAndResetSignals(resp: Response)
    ensures Classify(resp).reset != 0 ==> resp.status == 429
    ensures Classify(resp).status != resp.status ==>
              resp.status == 200 && Classify(resp).status == ValidationFailedStatus
              && !AllValid(RawList(resp.payload))
  {
  }

  /** A 200 response with one invalid entry among valid ones loses the whole
      page, valid entries included. */
  lemma OneInvalidEntryDiscardsPage(good: Listing)
    ensures var resp := Response(200, Some(40), None, JsonObject(Some([RawItem(Some(good)), RawItem(None)]), None));
            Classify(resp) == FetchResult([], 40, ValidationFailedStatus, 0)
  {
    var raw := [RawItem(Some(good)), RawItem(None)];
    assert raw[1].parsed.None?;
    assert !AllValid(raw);
  }
}

=== FILE: config.dfy ===
/** Fixed tuning constants of the monitor (config.py). Environment loading,
    logging setup and request headers are plumbing and are not modelled. */
module Config {

  /** Minimum fraction below the reference price for a listing to be a deal. */
  const MinDiscountFraction: real := 0.10

  /** Seconds between polls when nothing calls for a slowdown. */
  const BaseInterval: real := 10.0

  /** Upper end of the uniform jitter added to every poll delay. */
  const JitterRange: real := 2.0

  /** Seconds between polls when the rate-limit budget runs low. */
  const LongDelayInterval: real := 30.0
}

=== FILE: database.dfy ===
/** The durable seen/notified table (database.py), as a finite map from
    listing id to its row. Timestamps are integer seconds; the connection,
    the SQL text and the table creation are not modelled. */
module Store {

  const SecondsPerDay: int := 86400
  /** Retention window used when the caller gives none. */
  const DefaultRetentionDays: int := 7

  /** One row of the table: has an alert gone out, and when was the id first stored. */
  datatype Row = Row(notified: bool, createdAt: int)

  type Table = map<string, Row>

  /** is_seen: the id has a row, whatever its flag. */
  function IsSeen(t: Table, id: string): (b: bool)
    ensures b <==> id in t.Keys
  {
    id in t
  }

  /** is_notified: the id has a row whose flag is set; a notified id is
      always a seen one. */
  function IsNotified(t: Table, id: string): (b: bool)
    ensures b ==> IsSeen(t, id)
    ensures b <==> id in t.Keys && t[id].notified
  {
    id in t && t[id].notified
  }

  /** mark_as_seen: insert a fresh, not-notified row stamped `now`, or do
      nothing when the id already has a row. */
  function MarkAsSeen(t: Table, id: string, now: int): (t': Table)
    ensures IsSeen(t', id)
    ensures t'.Keys == t.Keys + {id}
    ensures id in t ==> t'[id] == t[id]
    ensures id !in t ==> t'[id] == Row(false, now)
    ensures forall k :: k in t && k != id ==> t'[k] == t[k]
  {
    if id in t then t else t[id := Row(false, now)]
  }

  /** mark_as_notified: set the flag on an existing row; an absent id stays absent. */
  function MarkAsNotified(t: Table, id: string): (t': Table)
    ensures t'.Keys == t.Keys
    ensures id in t ==> IsNotified(t', id) && t'[id].createdAt == t[id].createdAt
    ensures forall k :: k in t && k != id ==> t'[k] == t[k]
  {
    if id in t then t[id := t[id].(notified := true)] else t
  }

  /** The oldest creation time a row may have and survive a cleanup. */
  function Cutoff(now: int, days: int): int {
    now - days * SecondsPerDay
  }

  /** cleanup_old_items: delete the rows created before the cutoff. */
  function CleanupOldItems(t: Table, now: int, days: int): (t': Table)
    ensures forall k :: k in t' <==> k in t && t[k].createdAt >= Cutoff(now, days)
    ensures forall k :: k in t' ==> t'[k] == t[k]
  {
    map k | k in t && t[k].createdAt >= Cutoff(now, days) :: t[k]
  }

  /** Marking an id seen twice is the same as marking it once: the second
      mark keeps the first row, its flag and its timestamp. */
  lemma MarkAsSeenIdempotent(t: Table, id: string, now1: int, now2: int)
    ensures MarkAsSeen(MarkAsSeen(t, id, now1), id, now2) == MarkAsSeen(t, id, now1)
    ensures IsNotified(t, id) ==> IsNotified(MarkAsSeen(t, id, now2), id)
  {
  }

  lemma MarkAsNotifiedIdempotent(t: Table, id: string)
    ensures MarkAsNotified(MarkAsNotified(t, id), id) == MarkAsNotified(t, id)
  {
  }

  /** Cleaning up twice with the same clock and window removes nothing more. */
  lemma CleanupIdempotent(t: Table, now: int, days: int)
    ensures CleanupOldItems(CleanupOldItems(t, now, days), now, days) == CleanupOldItems(t, now, days)
  {
  }

  // ---------------------------------------------------------------------
  // The table as the result of a history of calls.
  // ---------------------------------------------------------------------

  /** One call into the store. */
  datatype Op =
    | MarkSeen(id: string, now: int)
    | MarkNotified(id: string)
    | Cleanup(now: int, days: int)

  function Apply(t: Table, op: Op): Table {
    match op
    case MarkSeen(id, now) => MarkAsSeen(t, id, now)
    case MarkNotified(id) => MarkAsNotified(t, id)
    case Cleanup(now, days) => CleanupOldItems(t, now, days)
  }

  /** The table after the calls `ops`, oldest first. */
  function Replay(t: Table, ops: seq<Op>): Table
    decreases |ops|
  {
    if ops == [] then t else Apply(Replay(t, ops[..|ops| - 1]), ops[|ops| - 1])
  }

  /** No call clears the flag: a notified id stays notified for as long as
      its row exists. */
  lemma FlagNeverCleared(t: Table, op: Op, id: string)
    requires IsNotified(t, id)
    ensures IsSeen(Apply(t, op), id) ==> IsNotified(Apply(t, op), id)
    ensures !op.Cleanup? ==> IsNotified(Apply(t, op), id)
  {
  }

  /** Every call touches at most the id it names; a cleanup only deletes. */
  lemma OtherRowsUnchanged(t: Table, op: Op, k: string)
    requires k in t
    requires !op.Cleanup? ==> op.id != k
    ensures k in Apply(t, op) ==> Apply(t, op)[k] == t[k]
    ensures !op.Cleanup? ==> k in Apply(t, op)
  {
  }

  predicate MarksSeen(op: Op, id: string) {
    op.MarkSeen? && op.id == id
  }

  predicate MarksNotified(op: Op, id: string) {
    op.MarkNotified? && op.id == id
  }

  /** Reference meaning of the table without cleanups, starting empty: an id
      is seen iff some call marked it seen. */
  lemma {:induction false} SeenIffMarked(ops: seq<Op>, id: string)
    requires forall i :: 0 <= i < |ops| ==> !ops[i].Cleanup?
    ensures IsSeen(Replay(map[], ops), id) <==> exists i :: 0 <= i < |ops| && MarksSeen(ops[i], id)
    decreases |ops|
  {
    if ops != [] {
      var init := ops[..|ops| - 1];
      SeenIffMarked(init, id);
      if exists i :: 0 <= i < |init| && MarksSeen(init[i], id) {
        var i :| 0 <= i < |init| && MarksSeen(init[i], id);
        assert MarksSeen(ops[i], id);
      }
      if exists i :: 0 <= i < |ops| && MarksSeen(ops[i], id) {
        var i :| 0 <= i < |ops| && MarksSeen(ops[i], id);
        if i < |init| {
          assert MarksSeen(init[i], id);
        }
      }
    }
  }

  /** Reference meaning of the flag without cleanups, starting empty: an id
      is notified iff a mark_as_notified for it came after a mark_as_seen for
      it. A notification for an id not yet seen leaves no trace. */
  lemma {:induction false} NotifiedIffMarkedAfterSeen(ops: seq<Op>, id: string)
    requires forall i :: 0 <= i < |ops| ==> !ops[i].Cleanup?
    ensures IsNotified(Replay(map[], ops), id) <==>
              exists i, j :: 0 <= i < j < |ops| && MarksSeen(ops[i], id) && MarksNotified(ops[j], id)
    decreases |ops|
  {
    if ops != [] {
      var init := ops[..|ops| - 1];
      var last := ops[|ops| - 1];
      var before := Replay(map[], init);
      NotifiedIffMarkedAfterSeen(init, id);
      SeenIffMarked(init, id);
      if IsNotified(Replay(map[], ops), id) {
        if IsNotified(before, id) {
          var i, j :| 0 <= i < j < |init| && MarksSeen(init[i], id) && MarksNotified(init[j], id);
          assert MarksSeen(ops[i], id) && MarksNotified(ops[j], id);
        } else {
          assert MarksNotified(last, id) && IsSeen(before, id);
          var i :| 0 <= i < |init| && MarksSeen(init[i], id);
          assert MarksSeen(ops[i], id);
        }
      }
      if exists i, j :: 0 <= i < j < |ops| && MarksSeen(ops[i], id) && MarksNotified(ops[j], id) {
        var i, j :| 0 <= i < j < |ops| && MarksSeen(ops[i], id) && MarksNotified(ops[j], id);
        assert MarksSeen(init[i], id);
        if j < |init| {
          assert MarksNotified(init[j], id);
          FlagNeverCleared(before, last, id);
        } else {
          assert IsSeen(before, id);
        }
      }
    }
  }

  /** Along any history, an id that is notified stays notified unless a
      cleanup deleted its row at some point (after which a new sighting
      starts a fresh, not-notified row). */
  lemma {:induction false} NotifiedStaysNotified(t: Table, ops: seq<Op>, id: string)
    requires IsNotified(t, id)
    ensures IsNotified(Replay(t, ops), id)
            || exists i :: 0 <= i < |ops| && ops[i].Cleanup? && !IsSeen(Replay(t, ops[..i + 1]), id)
    decreases |ops|
  {
    if ops != [] {
      var init := ops[..|ops| - 1];
      var last := ops[|ops| - 1];
      NotifiedStaysNotified(t, init, id);
      var before := Replay(t, init);
      if IsNotified(before, id) {
        FlagNeverCleared(before, last, id);
        if !IsNotified(Replay(t, ops), id) {
          assert ops[..|ops| - 1 + 1] == ops;
        }
      } else {
        var i :| 0 <= i < |init| && init[i].Cleanup? && !IsSeen(Replay(t, init[..i + 1]), id);
        assert ops[..i + 1] == init[..i + 1];
      }
    }
  }

  /** Without cleanups the flag, once set, is never lost. */
  lemma NotifiedStaysWithoutCleanup(t: Table, ops: seq<Op>, id: string)
    requires IsNotified(t, id)
    requires forall i :: 0 <= i < |ops| ==> !ops[i].Cleanup?
    ensures IsNotified(Replay(t, ops), id)
  {
    NotifiedStaysNotified(t, ops, id);
  }

  /** The default retention: with no window given, a cleanup keeps exactly
      the rows stamped within the last seven days (604800 seconds). */
  lemma DefaultRetentionKeepsAWeek(t: Table, now: int, id: string)
    requires id in t
    ensures IsSeen(CleanupOldItems(t, now, DefaultRetentionDays), id) <==> now - t[id].createdAt <= 604800
  {
  }

  /** A longer retention window never keeps fewer rows: the survivors of the
      shorter window all survive the longer one. */
  lemma LongerRetentionKeepsMore(t: Table, now: int, d1: int, d2: int)
    requires d1 <= d2
    ensures CleanupOldItems(t, now, d1).Keys <= CleanupOldItems(t, now, d2).Keys
  {
  }
}

=== FILE: models.dfy ===
/** The marketplace records (models.py): an item, its reference prices and a
    listing, plus the optional-field defaults the record decoder applies and
    the two derived values the monitor uses. */
module Models {

  datatype Option<+T> = None | Some(value: T)

  /** The item on offer: display name and optional wear attributes. */
  datatype Item = Item(marketHashName: string, floatValue: Option<real>, paintSeed: Option<int>)

  /** Estimated fair value of the item, in cents; either estimate may be missing. */
  datatype Reference = Reference(basePrice: Option<real>, predictedPrice: Option<real>)

  /** One sale offer; `price` is in cents and `kind` is the listing type. */
  datatype Listing = Listing(id: string, price: int, kind: string, item: Item, reference: Option<Reference>)

  /** Truthiness of an optional float: absent and zero are both false. */
  predicate Truthy(x: Option<real>) {
    x.Some? && x.value != 0.0
  }

  /** The reference price the monitor trusts: the base price, falling back to
      the predicted price when the base price is absent or zero. */
  function ValidPrice(r: Reference): (p: Option<real>)
    ensures p == r.basePrice || p == r.predictedPrice
    ensures Truthy(r.basePrice) ==> p == r.basePrice
  {
    if Truthy(r.basePrice) then r.basePrice else r.predictedPrice
  }

  /** Resolution order: base first, predicted when the base is absent or zero,
      nothing when both are absent. */
  lemma ValidPriceResolution(r: Reference)
    ensures r.basePrice.Some? && r.basePrice.value != 0.0 ==> ValidPrice(r) == r.basePrice
    ensures r.basePrice == None || r.basePrice == Some(0.0) ==> ValidPrice(r) == r.predictedPrice
    ensures r.basePrice == None && r.predictedPrice == None ==> ValidPrice(r) == None
  {
  }

  /** The resolved price is usable exactly when at least one estimate is. */
  lemma ValidPriceTruthy(r: Reference)
    ensures Truthy(ValidPrice(r)) <==> Truthy(r.basePrice) || Truthy(r.predictedPrice)
  {
  }

  /** The listing price in dollars. */
  function PriceUsd(l: Listing): (usd: real)
    ensures usd * 100.0 == l.price as real
    ensures l.price >= 0 ==> 0.0 <= usd
  {
    l.price as real / 100.0
  }

  // ---------------------------------------------------------------------
  // Record decoding: which fields are required and which default to None.
  // ---------------------------------------------------------------------

  /** A decoded JSON value, as far as the records need it. */
  datatype Json =
    | JNull
    | JInt(i: int)
    | JFloat(f: real)
    | JStr(s: string)
    | JObject(fields: map<string, Json>)

  /** A required string field. */
  function RequiredStr(fields: map<string, Json>, key: string): (r: Option<string>)
    ensures r.Some? <==> key in fields && fields[key].JStr?
    ensures r.Some? ==> fields[key] == JStr(r.value)
  {
    if key in fields && fields[key].JStr? then Some(fields[key].s) else None
  }

  /** A required integer field. */
  function RequiredInt(fields: map<string, Json>, key: string): (r: Option<int>)
    ensures r.Some? <==> key in fields && fields[key].JInt?
    ensures r.Some? ==> fields[key] == JInt(r.value)
  {
    if key in fields && fields[key].JInt? then Some(fields[key].i) else None
  }

  /** An optional float field: missing or null gives None; an integer is
      widened. The outer None is a validation failure. */
  function OptionalFloat(fields: map<string, Json>, key: string): (r: Option<Option<real>>)
    ensures key !in fields || fields[key] == JNull ==> r == Some(None)
    ensures r.Some? && r.value.Some? ==>
              key in fields && (fields[key] == JFloat(r.value.value) || fields[key] == JInt(r.value.value.Floor))
    ensures r == None <==> key in fields && !(fields[key].JNull? || fields[key].JFloat? || fields[key].JInt?)
    ensures key in fields && fields[key].JFloat? ==> r == Some(Some(fields[key].f))
    ensures key in fields && fields[key].JInt? ==> r == Some(Some(fields[key].i as real))
  {
    if key !in fields then Some(None)
    else match fields[key]
      case JNull => Some(None)
      case JFloat(f) => Some(Some(f))
      case JInt(i) => Some(Some(i as real))
      case _ => None
  }

  /** An optional integer field: missing or null gives None. */
  function OptionalInt(fields: map<string, Json>, key: string): (r: Option<Option<int>>)
    ensures key !in fields || fields[key] == JNull ==> r == Some(None)
    ensures r.Some? && r.value.Some? ==> key in fields && fields[key] == JInt(r.value.value)
    ensures r == None <==> key in fields && !(fields[key].JNull? || fields[key].JInt?)
    ensures key in fields && fields[key].JInt? ==> r == Some(Some(fields[key].i))
  {
    if key !in fields then Some(None)
    else match fields[key]
      case JNull => Some(None)
      case JInt(i) => Some(Some(i))
      case _ => None
  }

  function DecodeItem(j: Json): (r: Option<Item>)
    ensures r.Some? ==> j.JObject? && "market_hash_name" in j.fields
                        && j.fields["market_hash_name"] == JStr(r.value.marketHashName)
    ensures j.JObject? ==>
              (r.Some? <==>
                 && RequiredStr(j.fields, "market_hash_name").Some?
                 && OptionalFloat(j.fields, "float_value").Some?
                 && OptionalInt(j.fields, "paint_seed").Some?)
    ensures r.Some? ==>
              && Some(r.value.floatValue) == OptionalFloat(j.fields, "float_value")
              && Some(r.value.paintSeed) == OptionalInt(j.fields, "paint_seed")
  {
    if !j.JObject? then None
    else
      var name := RequiredStr(j.fields, "market_hash_name");
      var fv := OptionalFloat(j.fields, "float_value");
      var seed := OptionalInt(j.fields, "paint_seed");
      if name.None? || fv.None? || seed.None? then None
      else Some(Item(name.value, fv.value, seed.value))
  }

  function DecodeReference(j: Json): (r: Option<Reference>)
    ensures !j.JObject? ==> r == None
    ensures j.JObject? ==>
              (r.Some? <==>
                 OptionalFloat(j.fields, "base_price").Some? && OptionalFloat(j.fields, "predicted_price").Some?)
    ensures r.Some? ==>
              && Some(r.value.basePrice) == OptionalFloat(j.fields, "base_price")
              && Some(r.value.predictedPrice) == OptionalFloat(j.fields, "predicted_price")
  {
    if !j.JObject? then None
    else
      var base := OptionalFloat(j.fields, "base_price");
      var predicted := OptionalFloat(j.fields, "predicted_price");
      if base.None? || predicted.None? then None
      else Some(Reference(base.value, predicted.value))
  }

  /** The optional nested reference: missing or null gives None. */
  function OptionalReference(fields: map<string, Json>): Option<Option<Reference>> {
    if "reference" !in fields || fields["reference"] == JNull then Some(None)
    else
      var r := DecodeReference(fields["reference"]);
      if r.None? then None else Some(Some(r.value))
  }

  /** Validation of one raw listing object; None is a validation failure.
      Fields the record does not declare are ignored. */
  function DecodeListing(j: Json): (r: Option<Listing>)
    ensures !j.JObject? ==> r == None
    ensures r.Some? ==>
              && "id" in j.fields && j.fields["id"] == JStr(r.value.id)
              && "price" in j.fields && j.fields["price"] == JInt(r.value.price)
              && "type" in j.fields && j.fields["type"] == JStr(r.value.kind)
              && "item" in j.fields && DecodeItem(j.fields["item"]) == Some(r.value.item)
    ensures r.Some? && r.value.reference.Some? ==>
              "reference" in j.fields && DecodeReference(j.fields["reference"]) == r.value.reference
    ensures r.Some? ==> (r.value.reference.None? <==> "reference" !in j.fields || j.fields["reference"] == JNull)
    ensures j.JObject? ==>
              (r.Some? <==>
                 && RequiredStr(j.fields, "id").Some?
                 && RequiredInt(j.fields, "price").Some?
                 && RequiredStr(j.fields, "type").Some?
                 && "item" in j.fields && DecodeItem(j.fields["item"]).Some?
                 && ("reference" !in j.fields || j.fields["reference"] == JNull
                     || DecodeReference(j.fields["reference"]).Some?))
  {
    if !j.JObject? then None
    else
      var id := RequiredStr(j.fields, "id");
      var price := RequiredInt(j.fields, "price");
      var kind := RequiredStr(j.fields, "type");
      var item := if "item" in j.fields then DecodeItem(j.fields["item"]) else None;
      var reference := OptionalReference(j.fields);
      if id.None? || price.None? || kind.None? || item.None? || reference.None? then None
      else Some(Listing(id.value, price.value, kind.value, item.value, reference.value))
  }

  /** Optional attributes default to None: a listing object without
      `reference`, or with a null one, decodes with no reference, and a
      listing whose item object lacks `float_value` or `paint_seed` (or has
      them null) decodes with None there. */
  lemma AbsentFieldsDefaultToNone(j: Json)
    requires j.JObject?
    ensures DecodeListing(j).Some? && ("reference" !in j.fields || j.fields["reference"] == JNull) ==>
              DecodeListing(j).value.reference == None
    ensures DecodeListing(j).Some? &&
              ("float_value" !in j.fields["item"].fields || j.fields["item"].fields["float_value"] == JNull) ==>
              DecodeListing(j).value.item.floatValue == None
    ensures DecodeListing(j).Some? &&
              ("paint_seed" !in j.fields["item"].fields || j.fields["item"].fields["paint_seed"] == JNull) ==>
              DecodeListing(j).value.item.paintSeed == None
  {
  }

  /** Required fields: a listing object lacking an id, a price, a type or an
      item fails validation. */
  lemma MissingRequiredFieldFails(j: Json)
    requires j.JObject?
    requires "id" !in j.fields || "price" !in j.fields || "type" !in j.fields || "item" !in j.fields
    ensures DecodeListing(j) == None
  {
  }

  function EncodeOptionalFloat(key: string, x: Option<real>): map<string, Json> {
    if x.Some? then map[key := JFloat(x.value)] else map[]
  }

  function EncodeItem(it: Item): Json {
    JObject(map["market_hash_name" := JStr(it.marketHashName)]
            + EncodeOptionalFloat("float_value", it.floatValue)
            + (if it.paintSeed.Some? then map["paint_seed" := JInt(it.paintSeed.value)] else map[]))
  }

  function EncodeReference(r: Reference): Json {
    JObject(EncodeOptionalFloat("base_price", r.basePrice) + EncodeOptionalFloat("predicted_price", r.predictedPrice))
  }

  /** A listing as the marketplace sends it, with absent optional fields omitted. */
  function EncodeListing(l: Listing): Json {
    JObject(map["id" := JStr(l.id), "price" := JInt(l.price), "type" := JStr(l.kind), "item" := EncodeItem(l.item)]
            + (if l.reference.Some? then map["reference" := EncodeReference(l.reference.value)] else map[]))
  }

  lemma DecodeEncodeItem(it: Item)
    ensures DecodeItem(EncodeItem(it)) == Some(it)
  {
    var f := EncodeItem(it).fields;
    assert RequiredStr(f, "market_hash_name") == Some(it.marketHashName);
    assert OptionalFloat(f, "float_value") == Some(it.floatValue);
    assert OptionalInt(f, "paint_seed") == Some(it.paintSeed);
  }

  lemma DecodeEncodeReference(r: Reference)
    ensures DecodeReference(EncodeReference(r)) == Some(r)
  {
    var f := EncodeReference(r).fields;
    assert OptionalFloat(f, "base_price") == Some(r.basePrice);
    assert OptionalFloat(f, "predicted_price") == Some(r.predictedPrice);
  }

  /** Decoding inverts encoding: every listing survives the trip through its
      wire form, with omitted optional fields coming back as None. */
  lemma DecodeEncodeListing(l: Listing)
    ensures DecodeListing(EncodeListing(l)) == Some(l)
  {
    var f := EncodeListing(l).fields;
    assert RequiredStr(f, "id") == Some(l.id);
    assert RequiredInt(f, "price") == Some(l.price);
    assert RequiredStr(f, "type") == Some(l.kind);
    DecodeEncodeItem(l.item);
    assert f["item"] == EncodeItem(l.item);
    if l.reference.Some? {
      DecodeEncodeReference(l.reference.value);
      assert f["reference"] == EncodeReference(l.reference.value);
      assert OptionalReference(f) == Some(l.reference);
    } else {
      assert "reference" !in f;
    }
  }

  /** Keys the listing record does not declare are ignored: adding them to a
      listing's wire form changes nothing. */
  lemma ExtraFieldsIgnored(l: Listing, extra: map<string, Json>)
    requires extra.Keys !! {"id", "price", "type", "item", "reference"}
    ensures DecodeListing(JObject(extra + EncodeListing(l).fields)) == Some(l)
  {
    var f := EncodeListing(l).fields;
    var g := extra + f;
    DecodeEncodeListing(l);
    assert RequiredStr(g, "id") == RequiredStr(f, "id");
    assert RequiredInt(g, "price") == RequiredInt(f, "price");
    assert RequiredStr(g, "type") == RequiredStr(f, "type");
    assert g["item"] == f["item"];
    assert OptionalReference(g) == OptionalReference(f);
  }

  /** An explicit null reference validates like an absent one. */
  lemma NullReferenceValidates(l: Listing)
    ensures DecodeListing(JObject(EncodeListing(l).fields["reference" := JNull])) == Some(l.(reference := None))
  {
    var f := EncodeListing(l).fields;
    var g := f["reference" := JNull];
    DecodeEncodeListing(l);
    assert RequiredStr(g, "id") == RequiredStr(f, "id");
    assert RequiredInt(g, "price") == RequiredInt(f, "price");
    assert RequiredStr(g, "type") == RequiredStr(f, "type");
    assert g["item"] == f["item"];
    assert OptionalReference(g) == Some(None);
  }

  /** Keys the item record does not declare are ignored. */
  lemma ItemExtrasIgnored(it: Item, extra: map<string, Json>)
    requires extra.Keys !! {"market_hash_name", "float_value", "paint_seed"}
    ensures DecodeItem(JObject(extra + EncodeItem(it).fields)) == Some(it)
  {
    var f := EncodeItem(it).fields;
    var g := extra + f;
    DecodeEncodeItem(it);
    assert RequiredStr(g, "market_hash_name") == RequiredStr(f, "market_hash_name");
    assert OptionalFloat(g, "float_value") == OptionalFloat(f, "float_value");
    assert OptionalInt(g, "paint_seed") == OptionalInt(f, "paint_seed");
  }

  /** Keys the reference record does not declare are ignored. */
  lemma ReferenceExtrasIgnored(r: Reference, extra: map<string, Json>)
    requires extra.Keys !! {"base_price", "predicted_price"}
    ensures DecodeReference(JObject(extra + EncodeReference(r).fields)) == Some(r)
  {
    var f := EncodeReference(r).fields;
    var g := extra + f;
    DecodeEncodeReference(r);
    assert OptionalFloat(g, "base_price") == OptionalFloat(f, "base_price");
    assert OptionalFloat(g, "predicted_price") == OptionalFloat(f, "predicted_price");
  }
}

=== FILE: monitor.dfy ===
/** One iteration of the polling loop (monitor.py): the dedup window, the
    reference check, the discount test, the empty-fetch counter and the choice
    of delay before the next poll. Randomness enters as a jitter parameter;
    the sleep itself, the logging and the HTTP client are not modelled. */
module Monitor {
  import opened Config
  import opened Models
  import opened Api
  import opened Window

  /** Below this many remaining requests the loop waits the long delay. */
  const LowHeadroom: int := 10
  /** After this many empty fetches in a row the loop slows down. */
  const SlowdownStreak: nat := 5
  /** Fixed wait after an iteration that raised. */
  const CrashBackoff: real := 10.0

  // ---------------------------------------------------------------------
  // The discount test.
  // ---------------------------------------------------------------------

  /** What the loop concludes about one listing it has not seen before. */
  datatype Verdict =
    | NoReference
    | FullPrice
    | Deal(refUsd: real, discountPercent: real)

  /** The reference price in cents, when the listing has a usable one. */
  function ResolvedReference(l: Listing): (cents: Option<real>)
    ensures cents.Some? <==> l.reference.Some? && Truthy(ValidPrice(l.reference.value))
    ensures cents.Some? ==> cents.value != 0.0 && Some(cents.value) == ValidPrice(l.reference.value)
  {
    if l.reference.Some? && Truthy(ValidPrice(l.reference.value)) then ValidPrice(l.reference.value) else None
  }

  lemma DivMulCancel(x: real, y: real)
    requires y != 0.0
    ensures x / y * y == x
  {
  }

  lemma PositiveProduct(a: real, b: real)
    requires a > 0.0 && b > 0.0
    ensures a * b > 0.0
  {
  }

  /** A discount that is a share of a positive reference, against a
      non-negative price, is at most one hundred percent. */
  lemma PercentAtMostHundred(pct: real, refUsd: real, priceUsd: real)
    requires refUsd > 0.0 && priceUsd >= 0.0
    requires pct * refUsd == (refUsd - priceUsd) * 100.0
    ensures pct <= 100.0
  {
    assert (pct - 100.0) * refUsd == -100.0 * priceUsd;
    if pct > 100.0 {
      PositiveProduct(pct - 100.0, refUsd);
    }
  }

  /** For a positive reference, a price at most 90% of it is a discount of at
      least ten percent. */
  lemma DiscountAtLeastMinimum(refUsd: real, priceUsd: real)
    requires priceUsd <= refUsd * (1.0 - MinDiscountFraction)
    ensures refUsd > 0.0 ==> (refUsd - priceUsd) / refUsd * 100.0 >= MinDiscountFraction * 100.0
  {
    if refUsd > 0.0 {
      var q := (refUsd - priceUsd) / refUsd;
      DivMulCancel(refUsd - priceUsd, refUsd);
      assert q * refUsd == refUsd - priceUsd;
      assert q * refUsd >= MinDiscountFraction * refUsd;
    }
  }

  /** The per-listing decision: no decision without a usable reference,
      otherwise a deal iff the dollar price is at most the dollar reference
      less the minimum discount, reported with its discount percentage. */
  function Evaluate(l: Listing): (v: Verdict)
    ensures v.NoReference? <==> ResolvedReference(l).None?
    ensures v.Deal? ==> ResolvedReference(l).Some? && v.refUsd * 100.0 == ResolvedReference(l).value
    ensures ResolvedReference(l).Some? ==>
              (v.Deal? <==> PriceUsd(l) <= ResolvedReference(l).value / 100.0 * (1.0 - MinDiscountFraction))
    ensures v.Deal? ==> v.discountPercent * v.refUsd == (v.refUsd - PriceUsd(l)) * 100.0
    ensures v.Deal? && v.refUsd > 0.0 ==> v.discountPercent >= MinDiscountFraction * 100.0
  {
    var cents := ResolvedReference(l);
    if cents.None? then NoReference
    else
      var refUsd := cents.value / 100.0;
      var target := refUsd * (1.0 - MinDiscountFraction);
      if PriceUsd(l) <= target then
        var pct := (refUsd - PriceUsd(l)) / refUsd * 100.0;
        DivMulCancel(refUsd - PriceUsd(l), refUsd);
        assert pct * refUsd == (refUsd - PriceUsd(l)) * 100.0;
        DiscountAtLeastMinimum(refUsd, PriceUsd(l));
        Deal(refUsd, pct)
      else FullPrice
  }

  /** The test in whole cents: for a positive reference R and price P (both
      in cents), a listing is a deal iff 10 * P <= 9 * R. */
  lemma DealIffNinetyPercentInCents(l: Listing)
    requires ResolvedReference(l).Some? && ResolvedReference(l).value > 0.0
    ensures Evaluate(l).Deal? <==> 10.0 * (l.price as real) <= 9.0 * ResolvedReference(l).value
  {
  }

  /** A deal against a positive reference with a non-negative price reports a
      discount between the minimum and one hundred percent. */
  lemma DiscountWithinBounds(l: Listing)
    requires Evaluate(l).Deal? && Evaluate(l).refUsd > 0.0 && l.price >= 0
    ensures MinDiscountFraction * 100.0 <= Evaluate(l).discountPercent <= 100.0
  {
    var v := Evaluate(l);
    PercentAtMostHundred(v.discountPercent, v.refUsd, PriceUsd(l));
  }

  function SampleListing(price: int, base: Option<real>, predicted: Option<real>): Listing {
    Listing("a", price, "buy_now", Item("AK-47 | Redline", None, None), Some(Reference(base, predicted)))
  }

  /** Worked cases: against a 500-dollar reference, 450 dollars is a deal at
      exactly ten percent and 460 dollars is not; the predicted price stands
      in for a missing or zero base price, and a listing whose prices are both
      missing or zero gets no decision. */
  lemma DiscountExamples()
    ensures Evaluate(SampleListing(45000, Some(50000.0), None)) == Deal(500.0, 10.0)
    ensures Evaluate(SampleListing(46000, Some(50000.0), None)) == FullPrice
    ensures Evaluate(SampleListing(45000, None, Some(50000.0))) == Deal(500.0, 10.0)
    ensures Evaluate(SampleListing(45000, Some(0.0), Some(50000.0))) == Deal(500.0, 10.0)
    ensures Evaluate(SampleListing(45000, Some(40000.0), Some(50000.0))) == FullPrice
    ensures Evaluate(SampleListing(45000, Some(0.0), None)) == NoReference
    ensures Evaluate(SampleListing(45000, None, Some(0.0))) == NoReference
  {
    var deal := Evaluate(SampleListing(45000, Some(50000.0), None));
    assert deal.discountPercent * 500.0 == 5000.0;
    var predicted := Evaluate(SampleListing(45000, None, Some(50000.0)));
    assert predicted.discountPercent * 500.0 == 5000.0;
    var zeroBase := Evaluate(SampleListing(45000, Some(0.0), Some(50000.0)));
    assert zeroBase.discountPercent * 500.0 == 5000.0;
  }

  // ---------------------------------------------------------------------
  // The dedup window and one page of listings.
  // ---------------------------------------------------------------------

  /** A deal as the loop announces it. */
  datatype DealReport = DealReport(listing: Listing, refUsd: real, discountPercent: real)

  /** The report a listing earns, when it earns one. */
  predicate Reports(d: DealReport) {
    Evaluate(d.listing) == Deal(d.refUsd, d.discountPercent)
  }

  function ReportOf(l: Listing): DealReport
    requires Evaluate(l).Deal?
  {
    DealReport(l, Evaluate(l).refUsd, Evaluate(l).discountPercent)
  }

  /** One pass of the per-listing loop body: an id already in the window is
      skipped with no decision; a new id is recorded (possibly trimming the
      window) and then judged. */
  ghost function ProcessListing(w: set<string>, l: Listing): (r: (set<string>, Option<DealReport>))
    ensures l.id in w ==> r == (w, None)
    ensures l.id !in w ==> r.0 == Admit(w, l.id)
    ensures r.1.Some? <==> l.id !in w && Evaluate(l).Deal?
    ensures r.1.Some? ==> r.1.value.listing == l && Reports(r.1.value)
  {
    if l.id in w then (w, None)
    else
      var w' := Admit(w, l.id);
      var v := Evaluate(l);
      if v.Deal? then (w', Some(ReportOf(l))) else (w', None)
  }

  function Ids(page: seq<Listing>): set<string> {
    set l | l in page :: l.id
  }

  /** Reference meaning of a page when the window does not overflow: each
      listing is announced at its first occurrence in the page, if its id was
      not already known and it is a deal. */
  function FreshDeals(seen: set<string>, page: seq<Listing>): seq<DealReport>
    decreases |page|
  {
    if page == [] then []
    else
      var l := page[0];
      (if l.id !in seen && Evaluate(l).Deal? then [ReportOf(l)] else [])
      + FreshDeals(seen + {l.id}, page[1..])
  }

  lemma IdsCons(page: seq<Listing>)
    requires page != []
    ensures Ids(page) == {page[0].id} + Ids(page[1..])
  {
    assert page == [page[0]] + page[1..];
  }

  lemma SubsetCard(a: set<string>, b: set<string>)
    requires a <= b
    ensures |a| <= |b|
  {
    assert b == a + (b - a);
  }

  /** While the whole page fits in the window, recording the first listing
      adds its id without a trim and leaves the rest of the page fitting. */
  lemma NoOverflowHead(w: set<string>, page: seq<Listing>)
    requires page != [] && |w + Ids(page)| <= WindowCap
    ensures |w + {page[0].id}| <= WindowCap
    ensures w + {page[0].id} + Ids(page[1..]) == w + Ids(page)
  {
    IdsCons(page);
    SubsetCard(w + {page[0].id}, w + Ids(page));
  }

  /** The announcement, if any, of one pass of the loop body. */
  function Announced(found: Option<DealReport>): seq<DealReport> {
    if found.Some? then [found.value] else []
  }

  /** The per-listing loop over one page. The window never outgrows the cap,
      only ever holds ids it held or met, and every announced listing is a
      deal from this page; while the window does not overflow, the page's
      announcements are exactly its fresh deals. */
  ghost function ProcessPage(w: set<string>, page: seq<Listing>): (r: (set<string>, seq<DealReport>))
    ensures |w| <= WindowCap ==> |r.0| <= WindowCap
    ensures r.0 <= w + Ids(page)
    ensures forall d :: d in r.1 ==> d.listing in page && Reports(d)
    ensures |w + Ids(page)| <= WindowCap ==> r == (w + Ids(page), FreshDeals(w, page))
    decreases |page|, 1
  {
    if page == [] then (w, [])
    else
      var step := ProcessListing(w, page[0]);
      var rest := ProcessPage(step.0, page[1..]);
      PageStepWithin(w, page);
      PageStepReports(w, page);
      NoOverflowPage(w, page);
      (rest.0, Announced(step.1) + rest.1)
  }

  /** Inductive step of ProcessPage: the window keeps to old ids and page ids. */
  lemma PageStepWithin(w: set<string>, page: seq<Listing>)
    requires page != []
    ensures ProcessPage(ProcessListing(w, page[0]).0, page[1..]).0 <= w + Ids(page)
    decreases |page|, 0
  {
    IdsCons(page);
  }

  /** Inductive step of ProcessPage: every announcement is a deal of the page. */
  lemma PageStepReports(w: set<string>, page: seq<Listing>)
    requires page != []
    ensures var step := ProcessListing(w, page[0]);
            forall d :: d in Announced(step.1) + ProcessPage(step.0, page[1..]).1 ==> d.listing in page && Reports(d)
    decreases |page|, 0
  {
    var step := ProcessListing(w, page[0]);
    var rest := ProcessPage(step.0, page[1..]);
    assert forall d :: d in rest.1 ==> d.listing in page[1..];
  }

  /** Inductive step of ProcessPage: without overflow, it is FreshDeals. */
  lemma NoOverflowPage(w: set<string>, page: seq<Listing>)
    requires page != []
    ensures var step := ProcessListing(w, page[0]);
            var rest := ProcessPage(step.0, page[1..]);
            |w + Ids(page)| <= WindowCap ==>
              rest.0 == w + Ids(page) && Announced(step.1) + rest.1 == FreshDeals(w, page)
    decreases |page|, 0
  {
    if |w + Ids(page)| <= WindowCap {
      var step := ProcessListing(w, page[0]);
      NoOverflowHead(w, page);
      assert step.0 == w + {page[0].id};
      var rest := ProcessPage(step.0, page[1..]);
      assert rest == (w + Ids(page), FreshDeals(w + {page[0].id}, page[1..]));
    }
  }

  /** `l` occurs in the page at an index before which no listing has its id. */
  predicate FirstWithItsId(page: seq<Listing>, l: Listing, i: int) {
    0 <= i < |page| && page[i] == l && forall j :: 0 <= j < i ==> page[j].id != l.id
  }

  /** One step of FreshDeals: the head's own report, then the rest of the page. */
  lemma FreshDealsCons(seen: set<string>, page: seq<Listing>)
    requires page != []
    ensures FreshDeals(seen, page) ==
              (if page[0].id !in seen && Evaluate(page[0]).Deal? then [ReportOf(page[0])] else [])
              + FreshDeals(seen + {page[0].id}, page[1..])
  {
  }

  /** Every announcement of the page is a fresh deal at its id's first occurrence. */
  lemma {:induction false} FreshDealsSound(seen: set<string>, page: seq<Listing>, d: DealReport)
    requires d in FreshDeals(seen, page)
    ensures Evaluate(d.listing).Deal? && d.listing.id !in seen
    ensures exists i :: FirstWithItsId(page, d.listing, i)
    decreases |page|
  {
    var head := page[0];
    var tail := page[1..];
    FreshDealsCons(seen, page);
    if d in FreshDeals(seen + {head.id}, tail) {
      FreshDealsSound(seen + {head.id}, tail, d);
      var i :| FirstWithItsId(tail, d.listing, i);
      forall j | 0 <= j < i + 1 ensures page[j].id != d.listing.id {
        if j > 0 {
          assert page[j] == tail[j - 1];
        }
      }
      assert FirstWithItsId(page, d.listing, i + 1);
    } else {
      assert FirstWithItsId(page, d.listing, 0);
    }
  }

  /** Every fresh deal at its id's first occurrence is announced. */
  lemma {:induction false} FreshDealsComplete(seen: set<string>, page: seq<Listing>, l: Listing, i: int)
    requires Evaluate(l).Deal? && l.id !in seen && FirstWithItsId(page, l, i)
    ensures ReportOf(l) in FreshDeals(seen, page)
    decreases |page|
  {
    var head := page[0];
    var tail := page[1..];
    FreshDealsCons(seen, page);
    if i > 0 {
      assert head.id != l.id;
      forall j | 0 <= j < i - 1 ensures tail[j].id != l.id {
        assert tail[j] == page[j + 1];
      }
      assert FirstWithItsId(tail, l, i - 1);
      FreshDealsComplete(seen + {head.id}, tail, l, i - 1);
    }
  }

  /** The reference meaning, stated without recursion: a listing is announced
      iff it is a deal, its id was not known before the page and no earlier
      listing of the page carried the same id. */
  lemma FreshDealsExactly(seen: set<string>, page: seq<Listing>, l: Listing)
    ensures (exists d :: d in FreshDeals(seen, page) && d.listing == l) <==>
              Evaluate(l).Deal? && l.id !in seen && exists i :: FirstWithItsId(page, l, i)
  {
    if exists d :: d in FreshDeals(seen, page) && d.listing == l {
      var d :| d in FreshDeals(seen, page) && d.listing == l;
      FreshDealsSound(seen, page, d);
    }
    if Evaluate(l).Deal? && l.id !in seen && exists i :: FirstWithItsId(page, l, i) {
      var i :| FirstWithItsId(page, l, i);
      FreshDealsComplete(seen, page, l, i);
    }
  }

  /** Completeness even when the window overflows: a deal whose id the window
      did not hold before the page is announced at its id's first occurrence
      in the page, because up to that point the window only ever gains ids it
      held or met earlier in the page. (What overflow does cost is soundness:
      an evicted id may be announced again.) */
  lemma {:induction false} FreshDealAlwaysAnnounced(w: set<string>, page: seq<Listing>, l: Listing, i: int)
    requires Evaluate(l).Deal? && l.id !in w && FirstWithItsId(page, l, i)
    ensures ReportOf(l) in ProcessPage(w, page).1
    decreases |page|
  {
    var step := ProcessListing(w, page[0]);
    var tail := page[1..];
    var rest := ProcessPage(step.0, tail);
    assert ProcessPage(w, page).1 == Announced(step.1) + rest.1;
    if i == 0 {
      assert step.1 == Some(ReportOf(l));
    } else {
      assert page[0].id != l.id;
      assert step.0 <= w + {page[0].id};
      forall j | 0 <= j < i - 1 ensures tail[j].id != l.id {
        assert tail[j] == page[j + 1];
      }
      assert FirstWithItsId(tail, l, i - 1);
      FreshDealAlwaysAnnounced(step.0, tail, l, i - 1);
    }
  }

  // ---------------------------------------------------------------------
  // Pacing.
  // ---------------------------------------------------------------------

  /** The count of consecutive empty fetches after a fetch. */
  function NextEmptyStreak(streak: nat, listings: seq<Listing>): (n: nat)
    ensures listings == [] ==> n == streak + 1
    ensures listings != [] ==> n == 0
  {
    if listings == [] then streak + 1 else 0
  }

  /** The counter after a history of fetches, oldest first, starting from `start`. */
  function StreakAfter(start: nat, fetches: seq<seq<Listing>>): nat
    decreases |fetches|
  {
    if fetches == [] then start
    else NextEmptyStreak(StreakAfter(start, fetches[..|fetches| - 1]), fetches[|fetches| - 1])
  }

  /** Every fetch of the history came back empty. */
  predicate AllEmpty(fetches: seq<seq<Listing>>) {
    forall k :: 0 <= k < |fetches| ==> fetches[k] == []
  }

  /** A history with one more fetch is all empty iff the history was and the
      new fetch is. */
  lemma AllEmptySnoc(init: seq<seq<Listing>>, last: seq<Listing>)
    ensures AllEmpty(init + [last]) <==> AllEmpty(init) && last == []
  {
    var h := init + [last];
    assert h[|init|] == last;
    if AllEmpty(h) {
      forall k | 0 <= k < |init| ensures init[k] == [] {
        assert init[k] == h[k];
      }
    }
  }

  /** Reference meaning of the counter: it is the length of the run of empty
      fetches that ends the history (plus the starting count when the whole
      history is empty). It reaches m exactly when the last m fetches were
      all empty. */
  lemma {:induction false} StreakCountsTrailingEmpties(start: nat, fetches: seq<seq<Listing>>, m: nat)
    requires m <= |fetches|
    ensures StreakAfter(start, fetches) >= m <==> AllEmpty(fetches[|fetches| - m..])
    ensures AllEmpty(fetches) ==> StreakAfter(start, fetches) == start + |fetches|
    ensures !AllEmpty(fetches) ==> StreakAfter(start, fetches) < |fetches|
    decreases |fetches|
  {
    if fetches != [] {
      var n := |fetches|;
      var init := fetches[..n - 1];
      var last := fetches[n - 1];
      assert fetches == init + [last];
      AllEmptySnoc(init, last);
      if m == 0 {
        StreakCountsTrailingEmpties(start, init, 0);
        assert fetches[n..] == [];
      } else {
        StreakCountsTrailingEmpties(start, init, m - 1);
        assert fetches[n - m..] == init[n - m..] + [last];
        AllEmptySnoc(init[n - m..], last);
      }
    }
  }

  /** From a fresh start and with budget to spare, the loop slows down
      exactly when the last SlowdownStreak fetches all came back empty. */
  lemma SlowdownIffRecentFetchesEmpty(fetches: seq<seq<Listing>>, remaining: int, jitter: real)
    requires 0.0 <= jitter <= JitterRange
    requires remaining >= LowHeadroom
    ensures SleepTime(remaining, StreakAfter(0, fetches), jitter) == LongDelayInterval / 2.0 + jitter
            <==> |fetches| >= SlowdownStreak && AllEmpty(fetches[|fetches| - SlowdownStreak..])
  {
    if |fetches| >= SlowdownStreak {
      StreakCountsTrailingEmpties(0, fetches, SlowdownStreak);
    } else {
      StreakCountsTrailingEmpties(0, fetches, 0);
    }
  }

  /** The delay before the next poll: a low rate-limit budget wins, then a
      long run of empty fetches, then the base interval; jitter on top. */
  function SleepTime(remaining: int, emptyStreak: nat, jitter: real): (t: real)
    requires 0.0 <= jitter <= JitterRange
    ensures remaining < LowHeadroom ==> t == LongDelayInterval + jitter
    ensures remaining >= LowHeadroom && emptyStreak >= SlowdownStreak ==> t == LongDelayInterval / 2.0 + jitter
    ensures remaining >= LowHeadroom && emptyStreak < SlowdownStreak ==> t == BaseInterval + jitter
    ensures BaseInterval <= t <= LongDelayInterval + JitterRange
  {
    if remaining < LowHeadroom then LongDelayInterval + jitter
    else if emptyStreak >= SlowdownStreak then LongDelayInterval / 2.0 + jitter
    else BaseInterval + jitter
  }

  /** A low budget dominates: whatever the streak, no other budget or streak
      yields a longer delay for the same jitter. */
  lemma LowHeadroomDominates(remaining: int, streak: nat, otherRemaining: int, otherStreak: nat, jitter: real)
    requires 0.0 <= jitter <= JitterRange
    requires remaining < LowHeadroom
    ensures SleepTime(otherRemaining, otherStreak, jitter) <= SleepTime(remaining, streak, jitter)
  {
  }

  /** The delay is monotone: a longer empty streak or a smaller budget never
      shortens it. */
  lemma SleepMonotone(r1: int, r2: int, s1: nat, s2: nat, jitter: real)
    requires 0.0 <= jitter <= JitterRange
    requires r2 <= r1 && s1 <= s2
    ensures SleepTime(r1, s1, jitter) <= SleepTime(r2, s2, jitter)
  {
  }

  // ---------------------------------------------------------------------
  // One iteration.
  // ---------------------------------------------------------------------

  /** What the loop carries from one iteration to the next. */
  datatype MonitorState = MonitorState(window: set<string>, emptyStreak: nat)

  const Initial: MonitorState := MonitorState({}, 0)

  /** How an iteration ends: normally, with the deals it announced and the
      delay it chose, or by raising, after which the loop waits and retries. */
  datatype Outcome =
    | Completed(next: MonitorState, deals: seq<DealReport>, sleep: real)
    | Crashed(next: MonitorState, backoff: real)

  /** One iteration, given the listings and remaining budget of the fetch and
      the jitter drawn for the delay. */
  ghost function Step(s: MonitorState, listings: seq<Listing>, remaining: int, jitter: real): (o: Outcome)
    requires 0.0 <= jitter <= JitterRange
    ensures o.Completed?
    ensures listings == [] ==> o.next.emptyStreak == s.emptyStreak + 1 && o.deals == [] && o.next.window == s.window
    ensures listings != [] ==> o.next.emptyStreak == 0
    ensures |s.window| <= WindowCap ==> |o.next.window| <= WindowCap
    ensures forall d :: d in o.deals ==> d.listing in listings && Reports(d)
    ensures o.next.window <= s.window + Ids(listings)
    ensures |s.window + Ids(listings)| <= WindowCap ==>
              o.next.window == s.window + Ids(listings) && o.deals == FreshDeals(s.window, listings)
    ensures o.sleep == SleepTime(remaining, o.next.emptyStreak, jitter)
    ensures BaseInterval <= o.sleep <= LongDelayInterval + JitterRange
  {
    var streak := NextEmptyStreak(s.emptyStreak, listings);
    var (window, deals) := ProcessPage(s.window, listings);
    assert listings == [] ==> Ids(listings) == {};
    Completed(MonitorState(window, streak), deals, SleepTime(remaining, streak, jitter))
  }

  /** Every iteration, overflowing or not, announces each deal of the fetch
      whose id the window did not hold, at the id's first occurrence. */
  lemma StepAnnouncesFreshDeals(s: MonitorState, listings: seq<Listing>, remaining: int, jitter: real, l: Listing, i: int)
    requires 0.0 <= jitter <= JitterRange
    requires Evaluate(l).Deal? && l.id !in s.window && FirstWithItsId(listings, l, i)
    ensures ReportOf(l) in Step(s, listings, remaining, jitter).deals
  {
    FreshDealAlwaysAnnounced(s.window, listings, l, i);
  }

  /** A value the fetch hands back, as the unpacking at the top of an
      iteration sees it. */
  datatype Value = ListingsValue(listings: seq<Listing>) | IntValue(n: int)

  /** The tuple the fetch returns: listings, remaining, status, reset. */
  function Returned(r: FetchResult): (vs: seq<Value>)
    ensures |vs| == 4
    ensures vs[0] == ListingsValue(r.listings) && vs[1] == IntValue(r.remaining)
  {
    [ListingsValue(r.listings), IntValue(r.remaining), IntValue(r.status), IntValue(r.reset)]
  }

  /** The iteration as written: it unpacks the fetch's return value into two
      names. Any tuple of another length raises at once, and so does a pair of
      the wrong kinds; the handler then waits the fixed backoff and the state
      is untouched. */
  ghost function AsWrittenStep(s: MonitorState, returned: seq<Value>, jitter: real): (o: Outcome)
    requires 0.0 <= jitter <= JitterRange
    ensures |returned| != 2 ==> o == Crashed(s, CrashBackoff)
    ensures |returned| == 2 && returned[0].ListingsValue? && returned[1].IntValue? ==>
              o.Completed? && o.next.emptyStreak == NextEmptyStreak(s.emptyStreak, returned[0].listings)
    ensures o.Crashed? ==> o == Crashed(s, CrashBackoff)
  {
    if |returned| != 2 then Crashed(s, CrashBackoff)
    else if returned[0].ListingsValue? && returned[1].IntValue? then
      Step(s, returned[0].listings, returned[1].n, jitter)
    else Crashed(s, CrashBackoff)
  }

  /** What the fetch call did: it raised (a network error, an unreadable
      header or body), or the server answered. */
  datatype Fetch = Raised | Answered(response: Response)

  /** One poll: what the fetch did and the jitter drawn after it. */
  datatype Poll = Poll(fetch: Fetch, jitter: real)

  predicate JitterInRange(p: Poll) {
    0.0 <= p.jitter <= JitterRange
  }

  /** The iteration as written, fed by one poll: a raising fetch goes straight
      to the handler; an answer reaches the two-name unpacking. */
  ghost function AsWrittenPoll(s: MonitorState, p: Poll): (o: Outcome)
    requires JitterInRange(p)
    ensures p.fetch.Raised? ==> o == Crashed(s, CrashBackoff)
    ensures p.fetch.Answered? ==> o == AsWrittenStep(s, Returned(Classify(p.fetch.response)), p.jitter)
  {
    match p.fetch
    case Raised => Crashed(s, CrashBackoff)
    case Answered(resp) => AsWrittenStep(s, Returned(Classify(resp)), p.jitter)
  }

  /** The iteration with the unpacking corrected to take all four values:
      an answered fetch completes with the listings and budget it carried; a
      raising fetch backs off with the state untouched. */
  ghost function CorrectedStep(s: MonitorState, p: Poll): (o: Outcome)
    requires JitterInRange(p)
    ensures o.Completed? <==> p.fetch.Answered?
    ensures o.Crashed? ==> o == Crashed(s, CrashBackoff)
    ensures |s.window| <= WindowCap ==> |o.next.window| <= WindowCap
    ensures o.Completed? ==>
              && (forall d :: d in o.deals ==> d.listing in Classify(p.fetch.response).listings && Reports(d))
              && o.sleep == SleepTime(Classify(p.fetch.response).remaining, o.next.emptyStreak, p.jitter)
    ensures p.fetch.Answered? ==>
              o == Step(s, Classify(p.fetch.response).listings, Classify(p.fetch.response).remaining, p.jitter)
  {
    match p.fetch
    case Raised => Crashed(s, CrashBackoff)
    case Answered(resp) =>
      var f := Classify(resp);
      Step(s, f.listings, f.remaining, p.jitter)
  }

  /** As written, every iteration raises, at the fetch or at the unpacking,
      and backs off with the state untouched. */
  lemma AsWrittenAlwaysCrashes(s: MonitorState, p: Poll)
    requires JitterInRange(p)
    ensures AsWrittenPoll(s, p) == Crashed(s, CrashBackoff)
  {
  }

  /** The loop as written: one outcome per poll, each feeding the next. */
  ghost function RunAsWritten(s: MonitorState, polls: seq<Poll>): (trace: seq<Outcome>)
    requires forall i :: 0 <= i < |polls| ==> JitterInRange(polls[i])
    ensures |trace| == |polls|
    ensures polls != [] ==> trace[0] == AsWrittenPoll(s, polls[0])
    ensures forall i :: 0 < i < |polls| ==> trace[i] == AsWrittenPoll(trace[i - 1].next, polls[i])
    decreases |polls|
  {
    if polls == [] then []
    else
      var o := AsWrittenPoll(s, polls[0]);
      [o] + RunAsWritten(o.next, polls[1..])
  }

  /** The corrected loop: one outcome per poll, each feeding the next. The
      loop never stops on its own: every poll yields an outcome. */
  ghost function Run(s: MonitorState, polls: seq<Poll>): (trace: seq<Outcome>)
    requires forall i :: 0 <= i < |polls| ==> JitterInRange(polls[i])
    ensures |trace| == |polls|
    ensures polls != [] ==> trace[0] == CorrectedStep(s, polls[0])
    ensures forall i :: 0 < i < |polls| ==> trace[i] == CorrectedStep(trace[i - 1].next, polls[i])
    decreases |polls|
  {
    if polls == [] then []
    else
      var o := CorrectedStep(s, polls[0]);
      [o] + Run(o.next, polls[1..])
  }

  /** As written, the loop never gets past the unpacking: over any run every
      iteration crashes, the state never leaves its start, and no deal is
      ever announced. */
  lemma {:induction false} AsWrittenRunIsStuck(s: MonitorState, polls: seq<Poll>)
    requires forall i :: 0 <= i < |polls| ==> JitterInRange(polls[i])
    ensures forall i :: 0 <= i < |polls| ==> RunAsWritten(s, polls)[i] == Crashed(s, CrashBackoff)
    decreases |polls|
  {
    if polls != [] {
      AsWrittenAlwaysCrashes(s, polls[0]);
      AsWrittenRunIsStuck(s, polls[1..]);
      var rest := RunAsWritten(s, polls[1..]);
      assert RunAsWritten(s, polls) == [Crashed(s, CrashBackoff)] + rest;
    }
  }

  /** The corrected loop keeps its invariants over any run: the window stays
      within the cap, every completed iteration waits between the base
      interval and the long delay plus the jitter range, and every crashed
      one waits the fixed backoff. */
  lemma {:induction false} RunKeepsInvariants(s: MonitorState, polls: seq<Poll>)
    requires forall i :: 0 <= i < |polls| ==> JitterInRange(polls[i])
    requires |s.window| <= WindowCap
    ensures forall o :: o in Run(s, polls) ==> |o.next.window| <= WindowCap && InDelayBounds(o)
    decreases |polls|
  {
    if polls != [] {
      var o := CorrectedStep(s, polls[0]);
      RunKeepsInvariants(o.next, polls[1..]);
      assert Run(s, polls) == [o] + Run(o.next, polls[1..]);
    }
  }

  /** The wait an outcome asks for lies where the loop promises it. */
  predicate InDelayBounds(o: Outcome) {
    && (o.Completed? ==> BaseInterval <= o.sleep <= LongDelayInterval + JitterRange)
    && (o.Crashed? ==> o.backoff == CrashBackoff)
  }

  /** In the corrected loop an iteration completes iff its fetch answered. */
  lemma {:induction false} RunCompletesIffAnswered(s: MonitorState, polls: seq<Poll>)
    requires forall i :: 0 <= i < |polls| ==> JitterInRange(polls[i])
    ensures forall i :: 0 <= i < |polls| ==> (Run(s, polls)[i].Completed? <==> polls[i].fetch.Answered?)
    decreases |polls|
  {
    if polls != [] {
      var o := CorrectedStep(s, polls[0]);
      var tail := polls[1..];
      RunCompletesIffAnswered(o.next, tail);
      var rest := Run(o.next, tail);
      var trace := Run(s, polls);
      assert trace == [o] + rest;
      assert forall i :: 1 <= i < |polls| ==> trace[i] == rest[i - 1] && polls[i] == tail[i - 1];
    }
  }

  /** The arity mismatch costs every deal: from the start state, a 200 page
      holding one listing at 450 dollars against a 500-dollar reference is
      announced by the corrected iteration but lost by the one as written. */
  lemma ArityMismatchLosesDeal()
    ensures var l := SampleListing(45000, Some(50000.0), None);
            var p := Poll(Answered(Response(200, Some(40), None, JsonObject(Some([RawItem(Some(l))]), None))), 1.0);
            && AsWrittenPoll(Initial, p) == Crashed(Initial, CrashBackoff)
            && CorrectedStep(Initial, p).deals == [DealReport(l, 500.0, 10.0)]
  {
    var l := SampleListing(45000, Some(50000.0), None);
    var raw := [RawItem(Some(l))];
    var resp := Response(200, Some(40), None, JsonObject(Some(raw), None));
    assert RawList(resp.payload) == raw;
    assert AllValid(raw);
    assert raw[1..] == [];
    assert [l] + [] == [l];
    assert ParseAll(raw) == Some([l]);
    assert Classify(resp).listings == [l];
    DiscountExamples();
    assert Ids([l]) == {"a"};
    assert FreshDeals({}, [l]) == [DealReport(l, 500.0, 10.0)];
  }
}

=== FILE: window.dfy ===
/** The in-memory set of recently seen listing ids (monitor.py) and its
    eviction. The eviction keeps the last 500 entries of the set turned into a
    list; a set has no order, so which 500 survive is left open here: the
    enumeration is an unspecified choice, and nothing below depends on it. */
module Window {

  /** The window is trimmed once it grows past this many ids. */
  const WindowCap: nat := 1000
  /** How many ids survive a trim. */
  const KeepAfterEviction: nat := 500

  ghost predicate Distinct<T>(xs: seq<T>) {
    forall i, j :: 0 <= i < j < |xs| ==> xs[i] != xs[j]
  }

  function Elems<T>(xs: seq<T>): set<T> {
    set x | x in xs
  }

  /** A set with n distinct elements listed has n elements. */
  lemma {:induction false} DistinctElemsCard<T>(xs: seq<T>)
    requires Distinct(xs)
    ensures |Elems(xs)| == |xs|
  {
    if xs != [] {
      var rest := xs[1..];
      assert Distinct(rest) by {
        forall i, j | 0 <= i < j < |rest| ensures rest[i] != rest[j] {
          assert rest[i] == xs[i + 1] && rest[j] == xs[j + 1];
        }
      }
      DistinctElemsCard(rest);
      assert xs[0] !in Elems(rest);
      assert Elems(xs) == {xs[0]} + Elems(rest);
    }
  }

  /** Some listing of the set's elements, each once (what turning the set
      into a list yields). */
  ghost function Enumerate(s: set<string>): (order: seq<string>)
    ensures |order| == |s|
    ensures Elems(order) == s
    ensures Distinct(order)
  {
    if s == {} then []
    else
      var x :| x in s;
      var rest := Enumerate(s - {x});
      assert x !in rest by {
        assert x !in Elems(rest);
      }
      var order := rest + [x];
      assert Elems(order) == Elems(rest) + {x};
      order
  }

  /** What a trim may leave behind: some KeepAfterEviction ids of the window. */
  ghost predicate EvictionAllowed(before: set<string>, after: set<string>) {
    after <= before && |after| == KeepAfterEviction
  }

  /** The trim: the last KeepAfterEviction ids of the enumeration. */
  ghost function Evict(s: set<string>): (kept: set<string>)
    requires |s| >= KeepAfterEviction
    ensures EvictionAllowed(s, kept)
  {
    var order := Enumerate(s);
    var tail := order[|order| - KeepAfterEviction..];
    assert Distinct(tail) by {
      forall i, j | 0 <= i < j < |tail| ensures tail[i] != tail[j] {
        assert tail[i] == order[|order| - KeepAfterEviction + i];
        assert tail[j] == order[|order| - KeepAfterEviction + j];
      }
    }
    DistinctElemsCard(tail);
    assert Elems(tail) <= Elems(order);
    Elems(tail)
  }

  /** Record a new id, trimming the window when it has grown past the cap. */
  ghost function Admit(w: set<string>, id: string): (w': set<string>)
    ensures |w + {id}| <= WindowCap ==> w' == w + {id}
    ensures |w + {id}| > WindowCap ==> EvictionAllowed(w + {id}, w')
    ensures |w| <= WindowCap ==> |w'| <= WindowCap
    ensures w' <= w + {id}
  {
    var added := w + {id};
    if |added| > WindowCap then Evict(added) else added
  }

  /** Any finite set has subsets of every smaller size. */
  lemma {:induction false} SubsetOfSize(s: set<string>, n: nat) returns (t: set<string>)
    requires n <= |s|
    ensures t <= s && |t| == n
    decreases n
  {
    if n == 0 {
      t := {};
    } else {
      var x :| x in s;
      var u := SubsetOfSize(s - {x}, n - 1);
      t := u + {x};
    }
  }

  /** The trim does not keep the newest ids: when admitting an id overflows a
      full window, a trim that drops that very id and one that keeps it are
      both allowed, so the window may forget the id it has just recorded. */
  lemma EvictionIgnoresRecency(w: set<string>, id: string)
    requires |w| == WindowCap && id !in w
    ensures exists k :: EvictionAllowed(w + {id}, k) && id !in k
    ensures exists k :: EvictionAllowed(w + {id}, k) && id in k
  {
    var dropped := SubsetOfSize(w, KeepAfterEviction);
    assert EvictionAllowed(w + {id}, dropped) && id !in dropped;
    var others := SubsetOfSize(w, KeepAfterEviction - 1);
    var kept := others + {id};
    assert EvictionAllowed(w + {id}, kept) && id in kept;
  }
}
